=== FILE: README.md ===
# Toy robot on a 5 x 5 table, in Dafny

This project models the toy-robot program of `src/main/kotlin/Main.kt`. The
program reads text commands line by line:

- `PLACE x y FACING`;
- `MOVE`, `LEFT` and `RIGHT`;
- `REPORT`;
- `EXIT`.

It drives a robot on a square table of size 5. The model keeps the
program's structure, one module per piece of it:

- `Outcomes`: `Option` and `Result`. They stand for the exceptions the
  program throws and its command loop catches.
- `Numbers`: Kotlin's 32-bit `Int`, the JVM's wrapping addition used by
  `Point.translate`, and `String.toInt` (that is, `Integer.parseInt`).
- `Text`:
  - Kotlin's `trim()`, with the JVM's whitespace set written out;
  - `split(" ")`, which keeps empty pieces;
  - upper-casing;
  - `equals(..., ignoreCase = true)`.
- `Directions`: the `Direction` enum, its step vectors, and
  `String.toDirection` (trim, upper-case, then `valueOf`).
- `Robots`: `Robot.turn`, `left` and `right`, which use ordinal arithmetic
  with a clamp at both ends.
- `Tabletops`: the `Tabletop` state machine. The robot and its position
  exist only once a placement has succeeded. Every operation returns the
  new table or the error it raised.
- `Commands`: `Command.build` and `findCommand`. The reflective lookup of
  command classes and constructors becomes an explicit keyword→arity table,
  searched in the source's order.
- `Loop`:
  - `CommandLoop.eval` as a pure step function from a table and a command to
    a new table and an observable event;
  - the `try`/`catch` that keeps the old table on failure;
  - `readCommands` as a fold over the input lines, both as a function and as
    a loop method.
- `Scenarios`: whole runs on fixed inputs, from text lines to reported
  positions.

Two details of the code shape the error model:

- The `catch (t: Throwable)` at Main.kt lines 43-45 catches every failure
  of a command, including the `NumberFormatException` of a non-numeric
  coordinate. So besides invalid direction, out of bounds and not placed,
  the model has a fourth error, `BadNumber`. It is handled like the
  others: logged, with the table unchanged.
- Arguments are converted in the order the code evaluates them: x, then y,
  then the facing. The bounds check comes last. So `PLACE a 9 NORTHWEST`
  fails with `BadNumber`, not with one of the other errors.

## Model

| member | source | states |
|---|---|---|
| Numbers.AddInt | src/main/kotlin/Main.kt:141-143 | JVM `Int` addition: the exact sum when it fits in 32 bits; otherwise the sum shifted by exactly 2^32 |
| Numbers.ParseInt | src/main/kotlin/Main.kt:36 | `toInt` accepts only an optional sign followed by decimal digits. A negative value needs a leading '-'. The empty string and a lone sign are rejected |
| Numbers.ParseShow | src/main/kotlin/Main.kt:36 | Every `Int` written in decimal is read back as itself |
| Numbers.ParseShowOverflow | src/main/kotlin/Main.kt:36 | A well-formed decimal literal outside the `Int` range is rejected rather than wrapped |
| Numbers.ParsePlusZeros | src/main/kotlin/Main.kt:36 | An explicit '+' sign and any number of leading zeros do not change the value read |
| Numbers.ParseZeroPadded | src/main/kotlin/Main.kt:36 | Every literal made of a sign ('', '+' or '-'), any number of zeros and the digits of a magnitude is accepted with its signed value whenever that value fits in an `Int` |
| Text.Trim | src/main/kotlin/Main.kt:27 | The result has no whitespace at either end. It is the input with a whitespace-only prefix and a whitespace-only suffix removed, and the prefix is exactly the leading whitespace |
| Text.TrimPadding | src/main/kotlin/Main.kt:27 | Trimming a trimmed string surrounded by any whitespace gives exactly that string back |
| Text.TrimIdempotent | src/main/kotlin/Main.kt:54 | Trimming twice is trimming once |
| Text.Split | src/main/kotlin/Main.kt:68 | `split(" ")` gives one more piece than there are separators, and no piece contains the separator |
| Text.JoinSplit | src/main/kotlin/Main.kt:68 | Joining the pieces of a split with the separator gives back the original line, so nothing is lost, including empty pieces |
| Text.UpperLetters | src/main/kotlin/Main.kt:54 | Upper-casing leaves no lower-case ASCII letter, turns each one into its capital and keeps every other character |
| Text.EqualsIgnoreCaseCharwise | src/main/kotlin/Main.kt:85 | Two strings are equal ignoring case exactly when they have the same length and the characters at each position agree once upper-cased |
| Text.SplitJoin | src/main/kotlin/Main.kt:68 | Splitting separator-free words joined by single separators gives back exactly those words |
| Directions.Ordinal | src/main/kotlin/Main.kt:56-61 | Each direction's ordinal is its index in `values()`, in declaration order |
| Directions.UnitSteps | src/main/kotlin/Main.kt:56-61 | Every step vector has length one and lies on an axis |
| Directions.ValueOf | src/main/kotlin/Main.kt:54 | `valueOf` succeeds exactly on the four constant names, matched case-sensitively, and returns the constant with that name |
| Directions.ToDirection | src/main/kotlin/Main.kt:54 | The conversion succeeds with `d` exactly when the trimmed argument equals `d`'s name ignoring case. When it fails, no direction's name matches |
| Directions.ToDirectionAccepts | src/main/kotlin/Main.kt:54 | Every spelling of a direction's name in any mix of cases, with any whitespace around it, converts to that direction |
| Robots.Turn | src/main/kotlin/Main.kt:181-186 | On the ordinals `left` and `right` can produce (-1 to 4), the clamping gives the ordinal modulo 4 |
| Robots.Left | src/main/kotlin/Main.kt:173-175 | A left turn decreases the ordinal by one modulo 4 and rotates the step vector by +90 degrees |
| Robots.Right | src/main/kotlin/Main.kt:177-179 | A right turn increases the ordinal by one modulo 4 and rotates the step vector by -90 degrees |
| Robots.RightCycle | src/main/kotlin/Main.kt:177-186 | Right turns follow NORTH, EAST, SOUTH, WEST and back to NORTH |
| Robots.LeftRightInverse | src/main/kotlin/Main.kt:173-186 | Left after right, and right after left, restore the original facing |
| Robots.FullCircle | src/main/kotlin/Main.kt:177-186 | Four right turns restore the original facing |
| Robots.FullCircleLeft | src/main/kotlin/Main.kt:173-186 | Four left turns restore the original facing |
| Tabletops.Empty | src/main/kotlin/Main.kt:116-118 | A new table has the size it was given, no robot, and satisfies the table invariant |
| Tabletops.Place | src/main/kotlin/Main.kt:120-137 | Placement succeeds exactly when both coordinates lie in `0 until size`. It then sets exactly that position and facing, keeps the size, and leaves a valid table. Otherwise it fails with OutOfBounds |
| Tabletops.TranslateExact | src/main/kotlin/Main.kt:141-143 | From a point on the table one step never overflows, so the wrap-around of `translate` never takes effect |
| Tabletops.Translate | src/main/kotlin/Main.kt:141-143 | Each coordinate moves by the step vector exactly, except that stepping past the largest `Int` wraps to the smallest and the reverse |
| Tabletops.Move | src/main/kotlin/Main.kt:139-147 | An unplaced table fails with NotPlaced. From a valid placed state, Move succeeds exactly when the old position plus the facing's step vector is on the table; it then moves there with the same facing and the table stays valid. Otherwise it fails with OutOfBounds |
| Tabletops.Left | src/main/kotlin/Main.kt:154-157 | Fails exactly when unplaced, with NotPlaced. Otherwise it turns the robot left in place and keeps the table valid |
| Tabletops.Right | src/main/kotlin/Main.kt:159-162 | Fails exactly when unplaced, with NotPlaced. Otherwise it turns the robot right in place and keeps the table valid |
| Tabletops.ReportPosition | src/main/kotlin/Main.kt:165-168 | Fails exactly when unplaced, with NotPlaced. Otherwise it reports the current position and facing |
| Tabletops.PlaceOutsideRejected | src/main/kotlin/Main.kt:120-137 | A placement with either coordinate outside the table is refused with OutOfBounds, whatever the table held |
| Tabletops.PlaceForgetsPrevious | src/main/kotlin/Main.kt:120-125 | The outcome of a placement does not depend on what the table held before |
| Tabletops.TurnsKeepPosition | src/main/kotlin/Main.kt:154-162 | On a placed table both turns succeed, and each undoes the other, position included |
| Commands.FindKeyword | src/main/kotlin/Main.kt:84-85 | The search returns the first row whose name equals the word ignoring case. It returns none only when no row matches |
| Commands.FindCommand | src/main/kotlin/Main.kt:80-99 | A row is returned only if its name matches the word and its arity equals the number of arguments. No row is returned exactly when every matching row has a different arity |
| Commands.Construct | src/main/kotlin/Main.kt:76 | Calling row `i`'s constructor gives the command of that row, and a PLACE holds the three arguments in order |
| Commands.Build | src/main/kotlin/Main.kt:67-78 | A PLACE result comes from a line that is a spelling of PLACE followed by three space-free arguments, each after one space, passed on unchanged. Every other non-Noop result comes from a line that is exactly its keyword, ignoring case |
| Commands.BuildPlace | src/main/kotlin/Main.kt:67-78 | Any spelling of PLACE followed by three space-free arguments builds that Place, whatever the arguments say |
| Commands.BuildBare | src/main/kotlin/Main.kt:67-78 | Any spelling of MOVE, LEFT, RIGHT, REPORT or EXIT on its own builds that command |
| Commands.BuildWrongCount | src/main/kotlin/Main.kt:92-98 | A keyword followed by the wrong number of space-separated arguments builds Noop. Empty arguments from doubled spaces are counted |
| Commands.BuildUnknown | src/main/kotlin/Main.kt:84-90 | A line whose first word matches no keyword builds Noop, whatever follows |
| Commands.KeywordMatchUnique | src/main/kotlin/Main.kt:81-85 | A word matches at most one row of the table, so the search finds exactly that row |
| Loop.EvalPlace | src/main/kotlin/Main.kt:36 | A bad x fails with BadNumber first, then a bad y, then a bad facing with InvalidDirection. Once all three convert, the result is the table's placement: on the point it places the robot there, off the table it fails with OutOfBounds |
| Loop.Eval | src/main/kotlin/Main.kt:33-46 | PLACE, MOVE, LEFT and RIGHT dispatch to the table's operation: on success its new table replaces the old one, and on failure the old table is kept and the error recorded. Every command keeps the size and the table invariant. Before a placement, MOVE, LEFT, RIGHT and REPORT fail with NotPlaced. REPORT changes nothing; on a placed table it reports, and every report gives the current position and facing. Noop is ignored. Only EXIT stops the loop |
| Loop.ParseLinePadded | src/main/kotlin/Main.kt:27-28 | Whitespace around a line does not change the command it reads as |
| Loop.ReadLine | src/main/kotlin/Main.kt:27-29 | Reading one line keeps the table on failure, keeps its size and invariant, and ends the loop exactly when the line reads as EXIT |
| Loop.Fold | src/main/kotlin/Main.kt:25-31 | At most one event per command. Evaluation stops right after the first Bye event, and only there. The first event is the first command's |
| Loop.Run | src/main/kotlin/Main.kt:25-31 | A whole run from a valid table ends on a valid table of the same size, so the robot never leaves the table |
| Loop.ReadLinesParsed | src/main/kotlin/Main.kt:25-31 | Trimming, building and evaluating each line in turn is evaluating the sequence of parsed commands |
| Loop.FoldLoop | src/main/kotlin/Main.kt:26-30 | The while loop computes exactly the fold: the same final table and the same events |
| Loop.ReadCommands | src/main/kotlin/Main.kt:25-31 | Reading the lines on a fresh table of size 5 produces exactly the run of their parsed commands, and ends on a valid table |
| Loop.FoldReports | src/main/kotlin/Main.kt:25-31 | When every single step reports the table it starts from, every report in a run gives the table left by the commands before it |
| Loop.ReportReflectsRun | src/main/kotlin/Main.kt:33-46 | Every REPORT in a run gives exactly the position and facing that the commands before it left on the table |
| Loop.RunAppend | src/main/kotlin/Main.kt:25-31 | Running two inputs one after the other, the second on the first's final table, is running their concatenation, unless the first ends in EXIT |
| Loop.NothingBeforePlace | src/main/kotlin/Main.kt:149-168 | Without a PLACE, an unplaced table stays unplaced, and every event is NotPlaced, Ignored or Bye |
| Scenarios.ScenarioMoveNorth | src/main/kotlin/Main.kt:25-46 | The input PLACE 0 0 NORTH, MOVE, REPORT reports (0, 1, NORTH) |
| Scenarios.ScenarioTurnLeft | src/main/kotlin/Main.kt:25-46 | The input PLACE 1 2 EAST, LEFT, MOVE, REPORT reports (1, 3, NORTH) |
| Scenarios.ScenarioTwoMovesThenLeft | src/main/kotlin/Main.kt:25-46 | The input PLACE 1 2 EAST, MOVE, MOVE, LEFT, REPORT reports (3, 2, NORTH) |
| Scenarios.ScenarioEdge | src/main/kotlin/Main.kt:25-46 | The input PLACE 0 0 SOUTH, MOVE, REPORT: the move fails with OutOfBounds and the report still gives (0, 0, SOUTH) |
| Scenarios.ScenarioRecover | src/main/kotlin/Main.kt:25-46 | The input MOVE, FOO BAR, PLACE 2 2 WEST, REPORT fails with NotPlaced, ignores the unknown line, then reports (2, 2, WEST) |
| Scenarios.ScenarioExit | src/main/kotlin/Main.kt:41-51 | EXIT as the first line ends the run at once; nothing after it is evaluated |

## Left out

- Input comes from a finite sequence of lines, not from a `Scanner`. The
  lines are as `nextLine` would return them; how the stream is broken into
  lines is not modelled.
- `System.exit` and the "Bye!" output of `finish` become the event `Bye`,
  after which nothing more is evaluated.
- Logging is not modelled: the warnings of `findCommand`, the severe log of
  a caught error, and REPORT's info line. REPORT's output is the reported
  position and facing, not the `"$robot, $robotPosition"` text.
- Kotlin reflection (`KClass`, `constructors`, `call`) is replaced by the
  explicit table `Commands.Keywords` of class names and constructor arities.
- The mutable `java.awt.Point` and its `clone` are an immutable pair. The
  uninitialised `lateinit` property `robot` is read in `checkNotNull(robot)`
  (Main.kt:148-151), which throws `UninitializedPropertyAccessException`
  before the check runs. The model calls this NotPlaced.
- Exception types and messages become the four `Tabletops.Error` values.
- Text.Upper: case mapping is ASCII only. `toUpperCase` and
  `equals(ignoreCase = true)` also map some non-ASCII letters, such as
  U+0131 and U+017F, onto ASCII letters, and `toUpperCase` depends on the
  default locale. Such spellings of a keyword or direction are rejected by
  the model.
- Directions.ToDirection: inherits the ASCII-only upper-casing above.
- Numbers.ParseInt: accepts only ASCII digits. `Integer.parseInt` also
  accepts other Unicode decimal digits.
- Text.IsWhitespace: the whitespace set is that of current Unicode versions.
  Older JVMs also count U+180E as a space.
- Kotlin strings are sequences of UTF-16 code units and may hold lone
  surrogates. A Dafny `string` is a sequence of Unicode scalar values, so
  input lines holding lone surrogates cannot be expressed in the model.
- Concurrency does not arise: the program is single-threaded.

=== FILE: commands.dfy ===
/** The command parser (`Command.build` and `findCommand`, Main.kt lines
    63-113). A line is split on single spaces; the first word picks a
    command by its class name, ignoring case, and the remaining words must
    be exactly as many as that command's constructor takes. The arguments
    of PLACE are kept as the raw strings they were; they are converted only
    when the command is evaluated.
 */
module Commands {
  import opened Outcomes
  import opened Text

  datatype Command =
    | Place(x: string, y: string, facing: string)
    | Move
    | Left
    | Right
    | Report
    | Noop
    | Exit

  /** A row of the keyword table: a command class's simple name and the
      number of parameters of its constructor. */
  datatype Keyword = Keyword(name: string, arity: nat)

  /** The classes `findCommand` searches, in its order. */
  const Keywords: seq<Keyword> := [
    Keyword("Place", 3),
    Keyword("Move", 0),
    Keyword("Left", 0),
    Keyword("Right", 0),
    Keyword("Report", 0),
    Keyword("Exit", 0)
  ]

  /** The first row of `Keywords`, from `from` on, whose name equals `word`
      ignoring case. */
  function FindKeyword(word: string, from: nat): (r: Option<nat>)
    requires from <= |Keywords|
    decreases |Keywords| - from
    ensures r.Some? ==> from <= r.value < |Keywords| && EqualsIgnoreCase(word, Keywords[r.value].name)
    ensures r.Some? ==> forall j :: from <= j < r.value ==> !EqualsIgnoreCase(word, Keywords[j].name)
    ensures r.None? ==> forall j :: from <= j < |Keywords| ==> !EqualsIgnoreCase(word, Keywords[j].name)
  {
    if from == |Keywords| then None
    else if EqualsIgnoreCase(word, Keywords[from].name) then Some(from)
    else FindKeyword(word, from + 1)
  }

  /** `findCommand`: the row whose name matches `word` and whose arity is
      the number of arguments, or `None` (where the source logs a warning)
      when the name is unknown or the count is wrong. */
  function FindCommand(word: string, args: seq<string>): (r: Option<nat>)
    ensures r.Some? ==> r.value < |Keywords| && Keywords[r.value].arity == |args|
    ensures r.Some? ==> EqualsIgnoreCase(word, Keywords[r.value].name)
    ensures r.None? ==> forall j :: 0 <= j < |Keywords| && EqualsIgnoreCase(word, Keywords[j].name) ==> Keywords[j].arity != |args|
  {
    match FindKeyword(word, 0)
    case None => None
    case Some(i) =>
      KeywordMatchUnique(word, i);
      if Keywords[i].arity == |args| then Some(i) else None
  }

  /** Calling the constructor of row `i` with `args`: the command of that
      row, holding the arguments in order. */
  function Construct(i: nat, args: seq<string>): (c: Command)
    requires i < |Keywords| && Keywords[i].arity == |args|
    ensures !c.Noop? && RowOf(c) == i
    ensures c.Place? ==> [c.x, c.y, c.facing] == args
  {
    if i == 0 then Place(args[0], args[1], args[2])
    else if i == 1 then Move
    else if i == 2 then Left
    else if i == 3 then Right
    else if i == 4 then Report
    else Exit
  }

  /** The upper-case keyword of a command that the parser can produce. */
  function KeywordOf(c: Command): string
    requires !c.Noop?
  {
    match c
    case Place(_, _, _) => "PLACE"
    case Move => "MOVE"
    case Left => "LEFT"
    case Right => "RIGHT"
    case Report => "REPORT"
    case Exit => "EXIT"
  }

  /** `Command.build`: every line gives a command, Noop for anything not
      recognised. Stated in terms of the line itself: a PLACE is the keyword
      followed by three space-free arguments, one space before each, and
      every other command is the bare keyword. */
  function Build(line: string): (r: Command)
    ensures r.Place? ==>
      && |line| > 5
      && EqualsIgnoreCase(line[..5], "PLACE")
      && line == line[..5] + " " + r.x + " " + r.y + " " + r.facing
      && ' ' !in r.x && ' ' !in r.y && ' ' !in r.facing
    ensures !r.Place? && !r.Noop? ==> EqualsIgnoreCase(line, KeywordOf(r))
  {
    var words := Split(line, ' ');
    var word := words[0];
    var args := words[1..];
    JoinSplit(line, ' ');
    match FindCommand(word, args)
    case None => Noop
    case Some(i) =>
      assert Keywords[i].arity == 0 ==> line == word;
      assert i == 0 ==> line == word + " " + args[0] + " " + args[1] + " " + args[2] by {
        if i == 0 {
          assert words == [word, args[0], args[1], args[2]];
          JoinFour(words, ' ');
        }
      }
      KeywordTable();
      assert i == 0 ==> |word| == 5 && line[..5] == word;
      Construct(i, args)
  }

  lemma JoinFour(w: seq<string>, sep: char)
    requires |w| == 4
    ensures Join(w, sep) == w[0] + [sep] + w[1] + [sep] + w[2] + [sep] + w[3]
  {
    var t1 := w[1..];
    var t2 := t1[1..];
    var t3 := t2[1..];
    assert t3 == [w[3]];
    assert Join(t2, sep) == w[2] + [sep] + w[3];
    assert Join(t1, sep) == w[1] + [sep] + (w[2] + [sep] + w[3]);
  }

  /** Every spelling of PLACE followed by three space-free arguments is
      recognised, and the arguments reach the command unchanged. */
  lemma BuildPlace(word: string, x: string, y: string, facing: string)
    requires EqualsIgnoreCase(word, "PLACE")
    requires ' ' !in x && ' ' !in y && ' ' !in facing
    ensures Build(word + " " + x + " " + y + " " + facing) == Place(x, y, facing)
  {
    var words := [word, x, y, facing];
    NoSpaceInKeyword(word, Place(x, y, facing));
    JoinFour(words, ' ');
    BuildWords(words);
    KeywordTable();
    KeywordMatchUnique(word, 0);
  }

  /** Every spelling of a keyword without arguments is recognised. */
  lemma BuildBare(word: string, c: Command)
    requires !c.Noop? && !c.Place?
    requires EqualsIgnoreCase(word, KeywordOf(c))
    ensures Build(word) == c
  {
    NoSpaceInKeyword(word, c);
    BuildWords([word]);
    KeywordTable();
    KeywordMatchUnique(word, RowOf(c));
  }

  /** A known keyword with the wrong number of space-separated arguments is
      a no-op. Empty arguments count, so doubled spaces change the count. */
  lemma BuildWrongCount(word: string, c: Command, args: seq<string>)
    requires !c.Noop?
    requires EqualsIgnoreCase(word, KeywordOf(c))
    requires |args| != (if c.Place? then 3 else 0)
    requires forall i :: 0 <= i < |args| ==> ' ' !in args[i]
    ensures Build(Join([word] + args, ' ')) == Noop
  {
    NoSpaceInKeyword(word, c);
    var words := [word] + args;
    assert words[1..] == args;
    var row := RowOf(c);
    KeywordTable();
    assert EqualsIgnoreCase(word, Keywords[row].name);
    KeywordMatchUnique(word, row);
    RowArity(c);
    assert FindCommand(word, args).None?;
    forall i | 0 <= i < |words|
      ensures ' ' !in words[i]
    {
      if i > 0 {
        assert words[i] == args[i - 1];
      }
    }
    BuildWords(words);
  }

  /** A line whose first word names no command is a no-op, whatever
      follows it. */
  lemma BuildUnknown(line: string)
    requires forall j :: 0 <= j < |Keywords| ==> !EqualsIgnoreCase(Split(line, ' ')[0], Keywords[j].name)
    ensures Build(line) == Noop
  {
  }

  /** Building from space-free words joined by single spaces sees exactly
      those words. */
  lemma BuildWords(words: seq<string>)
    requires |words| >= 1
    requires forall i :: 0 <= i < |words| ==> ' ' !in words[i]
    ensures Build(Join(words, ' ')) ==
      match FindCommand(words[0], words[1..])
      case None => Noop
      case Some(i) => Construct(i, words[1..])
  {
    SplitJoin(words, ' ');
  }

  /** The row of the table that produces `c`. */
  function RowOf(c: Command): (i: nat)
    requires !c.Noop?
    ensures i < |Keywords| && UpperNames[i] == KeywordOf(c)
  {
    match c
    case Place(_, _, _) => 0
    case Move => 1
    case Left => 2
    case Right => 3
    case Report => 4
    case Exit => 5
  }

  /** Only PLACE takes arguments. */
  lemma RowArity(c: Command)
    requires !c.Noop?
    ensures Keywords[RowOf(c)].arity == if c.Place? then 3 else 0
  {
  }

  /** The table's names, upper-cased. */
  const UpperNames: seq<string> := ["PLACE", "MOVE", "LEFT", "RIGHT", "REPORT", "EXIT"]

  lemma KeywordTable()
    ensures |UpperNames| == |Keywords|
    ensures forall j :: 0 <= j < |Keywords| ==> Upper(Keywords[j].name) == UpperNames[j]
    ensures forall j :: 0 <= j < |Keywords| ==> Upper(UpperNames[j]) == UpperNames[j]
  {
    forall j | 0 <= j < |Keywords|
      ensures Upper(Keywords[j].name) == UpperNames[j] && Upper(UpperNames[j]) == UpperNames[j]
    {
      var n := Keywords[j].name;
      assert forall k :: 0 <= k < |n| ==> Upper(n)[k] == UpperNames[j][k];
      assert forall k :: 0 <= k < |n| ==> Upper(UpperNames[j])[k] == UpperNames[j][k];
    }
  }

  /** A word matches at most one row of the table, so the search finds
      that row. */
  lemma KeywordMatchUnique(word: string, i: nat)
    requires i < |Keywords| && EqualsIgnoreCase(word, Keywords[i].name)
    ensures FindKeyword(word, 0) == Some(i)
    ensures forall j :: 0 <= j < |Keywords| && EqualsIgnoreCase(word, Keywords[j].name) ==> j == i
  {
    KeywordTable();
  }

  /** A word that matches a keyword contains no space. */
  lemma NoSpaceInKeyword(word: string, c: Command)
    requires !c.Noop? && EqualsIgnoreCase(word, KeywordOf(c))
    ensures ' ' !in word
  {
    var keyword := KeywordOf(c);
    assert forall i :: 0 <= i < |keyword| ==> 'A' <= keyword[i] <= 'Z' by {
      match c
      case Place(_, _, _) =>
      case Move =>
      case Left =>
      case Right =>
      case Report =>
      case Exit =>
    }
    forall i | 0 <= i < |word|
      ensures word[i] != ' '
    {
      assert Upper(word)[i] == Upper(keyword)[i];
    }
  }
}

=== FILE: directions.dfy ===
/** The four compass directions, their unit step vectors, and the
    conversion of a facing argument to a direction (`String.toDirection`,
    Main.kt line 54).
 */
module Directions {
  import opened Outcomes
  import opened Text

  /** Declared in this order, so the ordinals are 0, 1, 2, 3. */
  datatype Direction = North | East | South | West

  /** `Direction.values()`: the directions in declaration order. */
  const Values: seq<Direction> := [North, East, South, West]

  /** The enum constant's name, as `valueOf` expects it. */
  function Name(d: Direction): string {
    match d
    case North => "NORTH"
    case East => "EAST"
    case South => "SOUTH"
    case West => "WEST"
  }

  /** The position of `d` in `Values`. */
  function Ordinal(d: Direction): (n: nat)
    ensures n < |Values| && Values[n] == d
  {
    match d
    case North => 0
    case East => 1
    case South => 2
    case West => 3
  }

  /** The x component of the unit step taken when facing `d`. */
  function XIncrement(d: Direction): int {
    match d
    case North => 0
    case East => 1
    case South => 0
    case West => -1
  }

  /** The y component of the unit step taken when facing `d`. */
  function YIncrement(d: Direction): int {
    match d
    case North => 1
    case East => 0
    case South => -1
    case West => 0
  }

  /** Every step vector has length one and lies on an axis. */
  lemma UnitSteps(d: Direction)
    ensures XIncrement(d) * XIncrement(d) + YIncrement(d) * YIncrement(d) == 1
    ensures XIncrement(d) == 0 || YIncrement(d) == 0
  {
  }

  /** `Direction.valueOf(name)`: the constant whose name is exactly `name`,
      case-sensitively; any other string is an `IllegalArgumentException`,
      here `None`. */
  function ValueOf(name: string): (r: Option<Direction>)
    ensures r.Some? ==> Name(r.value) == name
    ensures r.None? ==> forall d: Direction :: Name(d) != name
  {
    if name == "NORTH" then Some(North)
    else if name == "EAST" then Some(East)
    else if name == "SOUTH" then Some(South)
    else if name == "WEST" then Some(West)
    else None
  }

  /** `String.toDirection()`: trim, upper-case, then `valueOf`. */
  function ToDirection(s: string): (r: Option<Direction>)
    ensures r.Some? ==> EqualsIgnoreCase(Trim(s), Name(r.value))
    ensures r.None? ==> forall d: Direction :: !EqualsIgnoreCase(Trim(s), Name(d))
  {
    var r := ValueOf(Upper(Trim(s)));
    assert forall d: Direction :: Upper(Name(d)) == Name(d) by {
      forall d: Direction ensures Upper(Name(d)) == Name(d) {
        NameIsUpper(d);
      }
    }
    r
  }

  lemma NameIsUpper(d: Direction)
    ensures Upper(Name(d)) == Name(d)
  {
    var n := Name(d);
    assert forall i :: 0 <= i < |n| ==> 'A' <= n[i] <= 'Z';
  }

  /** The conversion accepts every spelling of a direction's name in any
      mix of cases, with any whitespace around it. */
  lemma ToDirectionAccepts(d: Direction, before: string, word: string, after: string)
    requires AllWhitespace(before) && AllWhitespace(after)
    requires EqualsIgnoreCase(word, Name(d))
    ensures ToDirection(before + word + after) == Some(d)
  {
    NameIsUpper(d);
    WordTrimmed(d, word);
    TrimPadding(before, word, after);
    ValueOfName(d);
  }

  /** A spelling of a direction's name starts and ends with a letter. */
  lemma WordTrimmed(d: Direction, word: string)
    requires Upper(word) == Name(d)
    ensures Trimmed(word)
  {
    assert Upper(word)[0] == Name(d)[0] && Upper(word)[|word| - 1] == Name(d)[|word| - 1];
  }

  /** `valueOf` inverts `name`. */
  lemma ValueOfName(d: Direction)
    ensures ValueOf(Name(d)) == Some(d)
  {
  }
}

=== FILE: loop.dfy ===
/** The command loop (`CommandLoop`, Main.kt lines 12-52) without its I/O:
    each input line is trimmed, parsed and evaluated against a table of
    size 5. Evaluation failures are caught, so a failing command leaves the
    table as it was and the loop goes on; EXIT stops the loop.
 */
module Loop {
  import opened Outcomes
  import opened Numbers
  import opened Directions
  import opened Text
  import opened Commands
  import T = Tabletops

  /** The size `CommandLoop` gives its table. */
  const TABLE_SIZE: int32 := 5

  /** What evaluating one command makes observable. */
  datatype Event =
    | Done                      // the operation succeeded silently
    | Reported(report: T.Report) // REPORT's logged position and facing
    | Failed(error: T.Error)    // the caught exception
    | Ignored                   // a Noop
    | Bye                       // EXIT: the process ends

  datatype Outcome = Outcome(table: T.Tabletop, event: Event)

  /** The `try`/`catch` around an operation: success replaces the table,
      failure keeps the old one and records the error. */
  function Catch(t: T.Tabletop, r: Result<T.Tabletop, T.Error>): (o: Outcome)
    ensures r.Ok? ==> o == Outcome(r.value, Done)
    ensures r.Err? ==> o == Outcome(t, Failed(r.error))
  {
    match r
    case Ok(next) => Outcome(next, Done)
    case Err(e) => Outcome(t, Failed(e))
  }

  /** Evaluating PLACE: the arguments are converted left to right (x, then y,
      then the facing), and only then is the table asked to place. */
  function EvalPlace(t: T.Tabletop, x: string, y: string, facing: string): (r: Result<T.Tabletop, T.Error>)
    ensures ParseInt(x).None? ==> r == Err(T.BadNumber)
    ensures ParseInt(x).Some? && ParseInt(y).None? ==> r == Err(T.BadNumber)
    ensures ParseInt(x).Some? && ParseInt(y).Some? && ToDirection(facing).None? ==> r == Err(T.InvalidDirection)
    ensures r.Ok? <==>
      && ParseInt(x).Some? && ParseInt(y).Some? && ToDirection(facing).Some?
      && 0 <= ParseInt(x).value < t.size && 0 <= ParseInt(y).value < t.size
    ensures r.Ok? ==> r.value.size == t.size && T.Valid(r.value)
    ensures ParseInt(x).Some? && ParseInt(y).Some? && ToDirection(facing).Some? ==>
      r == T.Place(t, ParseInt(x).value, ParseInt(y).value, ToDirection(facing).value)
  {
    var xv := ParseInt(x);
    var yv := ParseInt(y);
    var d := ToDirection(facing);
    if xv.None? || yv.None? then Err(T.BadNumber)
    else if d.None? then Err(T.InvalidDirection)
    else T.Place(t, xv.value, yv.value, d.value)
  }

  /** `CommandLoop.eval` for one command. */
  function Eval(t: T.Tabletop, cmd: Command): (o: Outcome)
    ensures o.event.Failed? ==> o.table == t
    ensures o.table.size == t.size
    ensures T.Valid(t) ==> T.Valid(o.table)
    ensures !cmd.Place? ==> (o.table.placement.Some? <==> t.placement.Some?)
    ensures t.placement.None? && (cmd.Move? || cmd.Left? || cmd.Right? || cmd.Report?) ==>
      o == Outcome(t, Failed(T.NotPlaced))
    ensures cmd.Place? ==> o == Catch(t, EvalPlace(t, cmd.x, cmd.y, cmd.facing))
    ensures cmd.Move? && T.Move(t).Ok? ==> o == Outcome(T.Move(t).value, Done)
    ensures cmd.Left? && T.Left(t).Ok? ==> o == Outcome(T.Left(t).value, Done)
    ensures cmd.Right? && T.Right(t).Ok? ==> o == Outcome(T.Right(t).value, Done)
    ensures cmd.Move? && T.Move(t).Err? ==> o == Outcome(t, Failed(T.Move(t).error))
    ensures cmd.Report? ==> o.table == t
    ensures cmd.Report? && t.placement.Some? ==> o.event.Reported?
    ensures o.event.Reported? ==>
      && cmd.Report? && t.placement.Some?
      && T.Point(o.event.report.x, o.event.report.y) == t.placement.value.position
      && o.event.report.facing == t.placement.value.robot.facing
    ensures cmd.Noop? ==> o == Outcome(t, Ignored)
    ensures o.event.Bye? <==> cmd.Exit?
    ensures cmd.Exit? ==> o.table == t
  {
    match cmd
    case Place(x, y, facing) => Catch(t, EvalPlace(t, x, y, facing))
    case Move => Catch(t, T.Move(t))
    case Left => Catch(t, T.Left(t))
    case Right => Catch(t, T.Right(t))
    case Report =>
      (match T.ReportPosition(t)
       case Ok(report) => Outcome(t, Reported(report))
       case Err(e) => Outcome(t, Failed(e)))
    case Noop => Outcome(t, Ignored)
    case Exit => Outcome(t, Bye)
  }

  /** The table after a run, and one event per command that was read. */
  datatype Trace = Trace(table: T.Tabletop, events: seq<Event>)

  /** Evaluating commands one by one with `step`; evaluation stops right
      after the first `Bye`, whatever input remains. */
  function Fold<C>(step: (T.Tabletop, C) -> Outcome, t: T.Tabletop, cmds: seq<C>): (r: Trace)
    ensures |r.events| <= |cmds|
    ensures forall i :: 0 <= i < |r.events| - 1 ==> !r.events[i].Bye?
    ensures |r.events| < |cmds| ==> |r.events| > 0 && r.events[|r.events| - 1].Bye?
    ensures |cmds| > 0 ==> |r.events| > 0 && r.events[0] == step(t, cmds[0]).event
    decreases |cmds|
  {
    if |cmds| == 0 then Trace(t, [])
    else
      var o := step(t, cmds[0]);
      if o.event.Bye? then Trace(o.table, [Bye])
      else
        var rest := Fold(step, o.table, cmds[1..]);
        Trace(rest.table, [o.event] + rest.events)
  }

  /** A property of tables that every step keeps is kept by the whole run. */
  lemma {:induction false} FoldKeepsValid<C>(step: (T.Tabletop, C) -> Outcome, t: T.Tabletop, cmds: seq<C>)
    requires forall u: T.Tabletop, c: C :: T.Valid(u) ==> T.Valid(step(u, c).table)
    requires forall u: T.Tabletop, c: C :: step(u, c).table.size == u.size
    requires T.Valid(t)
    ensures T.Valid(Fold(step, t, cmds).table)
    ensures Fold(step, t, cmds).table.size == t.size
    decreases |cmds|
  {
    if |cmds| > 0 {
      FoldKeepsValid(step, step(t, cmds[0]).table, cmds[1..]);
    }
  }

  /** The commands of the input evaluated by `CommandLoop.eval`. */
  function Run(t: T.Tabletop, cmds: seq<Command>): (r: Trace)
    requires T.Valid(t)
    ensures T.Valid(r.table) && r.table.size == t.size
    ensures |r.events| <= |cmds|
    ensures forall i :: 0 <= i < |r.events| - 1 ==> !r.events[i].Bye?
    ensures |r.events| < |cmds| ==> |r.events| > 0 && r.events[|r.events| - 1].Bye?
  {
    FoldKeepsValid(Eval, t, cmds);
    Fold(Eval, t, cmds)
  }

  /** `f` applied to every element of `s`, in order. */
  function Map<A, B>(f: A -> B, s: seq<A>): (r: seq<B>)
    ensures |r| == |s| && forall i :: 0 <= i < |s| ==> r[i] == f(s[i])
  {
    seq(|s|, i requires 0 <= i < |s| => f(s[i]))
  }

  /** Mapping commutes with dropping the first element. */
  lemma MapTail<A, B>(f: A -> B, s: seq<A>)
    requires |s| > 0
    ensures Map(f, s)[1..] == Map(f, s[1..])
  {
    assert forall i :: 0 <= i < |s| - 1 ==> s[1..][i] == s[i + 1];
  }

  /** How `readCommands` turns one input line into a command. */
  function ParseLine(line: string): Command {
    Build(Trim(line))
  }

  /** Each input line trimmed and parsed, as `readCommands` does before
      evaluating it. */
  function ParseLines(lines: seq<string>): (cmds: seq<Command>)
    ensures |cmds| == |lines|
  {
    Map(ParseLine, lines)
  }

  /** The parsed lines are determined line by line. */
  lemma ParseLinesEach(lines: seq<string>, cmds: seq<Command>)
    requires |lines| == |cmds|
    requires forall i :: 0 <= i < |lines| ==> Build(Trim(lines[i])) == cmds[i]
    ensures ParseLines(lines) == cmds
  {
  }

  /** Whitespace around a line does not change the command it reads as. */
  lemma ParseLinePadded(before: string, line: string, after: string)
    requires AllWhitespace(before) && AllWhitespace(after) && Trimmed(line)
    ensures ParseLine(before + line + after) == ParseLine(line)
  {
    TrimPadding(before, line, after);
    TrimTrimmed(line);
  }

  /** What `readCommands` does with one input line: trim it, build the
      command and evaluate it. A failure keeps the table, the table keeps
      its size and its invariant, and only an EXIT line says goodbye. */
  function ReadLine(t: T.Tabletop, line: string): (o: Outcome)
    ensures o.event.Failed? ==> o.table == t
    ensures o.table.size == t.size
    ensures T.Valid(t) ==> T.Valid(o.table)
    ensures o.event.Bye? <==> ParseLine(line).Exit?
  {
    Eval(t, ParseLine(line))
  }

  /** Reading the lines one at a time evaluates the commands they parse
      to. */
  lemma {:induction false} ReadLinesParsed(t: T.Tabletop, lines: seq<string>)
    ensures Fold(ReadLine, t, lines) == Fold(Eval, t, ParseLines(lines))
    decreases |lines|
  {
    if |lines| > 0 {
      var cmds := ParseLines(lines);
      var o := ReadLine(t, lines[0]);
      assert o == Eval(t, cmds[0]);
      ReadLinesParsed(o.table, lines[1..]);
      MapTail(ParseLine, lines);
      FoldUnfold(ReadLine, t, lines);
      FoldUnfold(Eval, t, cmds);
    }
  }

  /** `CommandLoop.readCommands` over a finite input, on a fresh table of
      size 5. */
  method ReadCommands(lines: seq<string>) returns (table: T.Tabletop, events: seq<Event>)
    ensures Trace(table, events) == Run(T.Empty(TABLE_SIZE), ParseLines(lines))
    ensures T.Valid(table) && table.size == TABLE_SIZE
  {
    table, events := FoldLoop(ReadLine, T.Empty(TABLE_SIZE), lines);
    ReadLinesParsed(T.Empty(TABLE_SIZE), lines);
  }

  /** The loop of `readCommands` for any step: take the items in order,
      keep each step's table, record its event, and stop right after a
      `Bye`. */
  method FoldLoop<C>(step: (T.Tabletop, C) -> Outcome, t: T.Tabletop, items: seq<C>)
    returns (table: T.Tabletop, events: seq<Event>)
    ensures Trace(table, events) == Fold(step, t, items)
  {
    table, events := t, [];
    var i := 0;
    while i < |items|
      invariant 0 <= i <= |items|
      invariant Fold(step, t, items) ==
        Trace(Fold(step, table, items[i..]).table, events + Fold(step, table, items[i..]).events)
    {
      var o := step(table, items[i]);
      FoldUnfold(step, table, items[i..]);
      assert items[i..][1..] == items[i + 1..];
      if o.event.Bye? {
        table, events := o.table, events + [Bye];
        return;
      }
      AppendAssoc(events, [o.event], Fold(step, o.table, items[i + 1..]).events);
      table, events := o.table, events + [o.event];
      i := i + 1;
    }
    assert items[i..] == [];
  }

  /** A run whose first step is known and does not stop the loop produces
      that step's event followed by the events of the rest. */
  lemma FoldThen<C>(step: (T.Tabletop, C) -> Outcome, t: T.Tabletop, c: C, rest: seq<C>,
                    o: Outcome, tail: seq<Event>)
    requires step(t, c) == o && !o.event.Bye?
    requires Fold(step, o.table, rest).events == tail
    ensures Fold(step, t, [c] + rest).events == [o.event] + tail
  {
    FoldUnfold(step, t, [c] + rest);
    assert ([c] + rest)[1..] == rest;
  }

  /** One step of a fold. */
  lemma FoldUnfold<C>(step: (T.Tabletop, C) -> Outcome, t: T.Tabletop, cmds: seq<C>)
    requires |cmds| > 0
    ensures Fold(step, t, cmds) ==
      var o := step(t, cmds[0]);
      if o.event.Bye? then Trace(o.table, [Bye])
      else Trace(Fold(step, o.table, cmds[1..]).table, [o.event] + Fold(step, o.table, cmds[1..]).events)
  {
  }

  /** Running two inputs one after the other is running their
      concatenation, provided the first does not end in EXIT. */
  lemma {:induction false} FoldAppend<C>(step: (T.Tabletop, C) -> Outcome, t: T.Tabletop, a: seq<C>, b: seq<C>)
    requires forall i :: 0 <= i < |Fold(step, t, a).events| ==> !Fold(step, t, a).events[i].Bye?
    ensures Fold(step, t, a + b) ==
      var ra := Fold(step, t, a);
      var rb := Fold(step, ra.table, b);
      Trace(rb.table, ra.events + rb.events)
    decreases |a|
  {
    if |a| == 0 {
      assert a + b == b;
    } else {
      var o := step(t, a[0]);
      var ra := Fold(step, t, a);
      var tail := Fold(step, o.table, a[1..]);
      assert ra == Trace(tail.table, [o.event] + tail.events);
      forall i | 0 <= i < |tail.events|
        ensures !tail.events[i].Bye?
      {
        assert tail.events[i] == ra.events[i + 1];
      }
      FoldAppend(step, o.table, a[1..], b);
      var ab := a + b;
      assert ab[0] == a[0] && ab[1..] == a[1..] + b;
      var rest := Fold(step, o.table, a[1..] + b);
      var rb := Fold(step, tail.table, b);
      assert Fold(step, t, ab) == Trace(rest.table, [o.event] + rest.events);
      AppendAssoc([o.event], tail.events, rb.events);
    }
  }

  /** Evaluating two inputs in turn is evaluating their concatenation,
      provided the first does not end in EXIT. */
  lemma RunAppend(t: T.Tabletop, a: seq<Command>, b: seq<Command>)
    requires T.Valid(t)
    requires forall i :: 0 <= i < |Run(t, a).events| ==> !Run(t, a).events[i].Bye?
    ensures Run(t, a + b) ==
      var ra := Run(t, a);
      var rb := Run(ra.table, b);
      Trace(rb.table, ra.events + rb.events)
  {
    assert Run(t, a) == Fold(Eval, t, a);
    FoldAppend(Eval, t, a, b);
  }

  lemma AppendAssoc<X>(a: seq<X>, b: seq<X>, c: seq<X>)
    ensures a + (b + c) == (a + b) + c
  {
  }

  /** Before any PLACE nothing can create the robot: from an unplaced table,
      commands without a PLACE leave the table unplaced, and every MOVE,
      LEFT, RIGHT or REPORT among them fails with NotPlaced. */
  lemma {:induction false} NothingBeforePlace(t: T.Tabletop, cmds: seq<Command>)
    requires t.placement.None?
    requires forall i :: 0 <= i < |cmds| ==> !cmds[i].Place?
    ensures Run(t, cmds).table == t
    ensures forall i :: 0 <= i < |Run(t, cmds).events| ==>
      Run(t, cmds).events[i] in {Failed(T.NotPlaced), Ignored, Bye}
    decreases |cmds|
  {
    if |cmds| > 0 {
      NothingBeforePlace(t, cmds[1..]);
      FoldUnfold(Eval, t, cmds);
      var r := Run(t, cmds);
      var tail := Run(t, cmds[1..]);
      var o := Eval(t, cmds[0]);
      if !o.event.Bye? {
        assert r == Trace(tail.table, [o.event] + tail.events);
        assert forall i :: 1 <= i < |r.events| ==> r.events[i] == tail.events[i - 1];
      }
    }
  }

  /** `e` is no report, or it reports exactly the robot that `t` holds. */
  predicate ReportsTable(t: T.Tabletop, e: Event) {
    e.Reported? ==>
      && t.placement.Some?
      && T.Point(e.report.x, e.report.y) == t.placement.value.position
      && e.report.facing == t.placement.value.robot.facing
  }

  /** If every single step reports the table it starts from, then every
      report of a run gives the table left by the commands before it. */
  lemma {:induction false} FoldReports<C>(step: (T.Tabletop, C) -> Outcome, t: T.Tabletop, cmds: seq<C>, i: nat)
    requires forall u: T.Tabletop, c: C :: ReportsTable(u, step(u, c).event)
    requires i < |Fold(step, t, cmds).events|
    ensures i <= |cmds|
    ensures ReportsTable(Fold(step, t, cmds[..i]).table, Fold(step, t, cmds).events[i])
    decreases i
  {
    var o := step(t, cmds[0]);
    FoldUnfold(step, t, cmds);
    if i == 0 {
      assert cmds[..0] == [];
    } else {
      assert !o.event.Bye?;
      var rest := cmds[1..];
      FoldReports(step, o.table, rest, i - 1);
      FoldUnfold(step, t, cmds[..i]);
      assert cmds[..i][1..] == rest[..i - 1];
    }
  }

  /** A REPORT in a run gives the exact position and facing that the
      commands before it left on the table. */
  lemma ReportReflectsRun(t: T.Tabletop, cmds: seq<Command>, i: nat)
    requires T.Valid(t)
    requires i < |Run(t, cmds).events| && Run(t, cmds).events[i].Reported?
    ensures i <= |cmds|
    ensures var before := Run(t, cmds[..i]).table;
      && before.placement.Some?
      && T.Point(Run(t, cmds).events[i].report.x, Run(t, cmds).events[i].report.y) == before.placement.value.position
      && Run(t, cmds).events[i].report.facing == before.placement.value.robot.facing
  {
    forall u: T.Tabletop, c: Command
      ensures ReportsTable(u, Eval(u, c).event)
    {
    }
    FoldReports(Eval, t, cmds, i);
  }
}

=== FILE: numbers.dfy ===
/** The 32-bit integers of the JVM and the text-to-integer conversion that
    the command loop applies to the x and y arguments of a PLACE command
    (Kotlin's `String.toInt`, which is `Integer.parseInt` in radix 10).
 */
module Numbers {
  import opened Outcomes

  const MIN_INT: int := -0x8000_0000
  const MAX_INT: int := 0x7fff_ffff
  const TWO_TO_32: int := 0x1_0000_0000

  /** A Kotlin `Int`. */
  type int32 = n: int | -0x8000_0000 <= n <= 0x7fff_ffff

  /** JVM `Int` addition: the exact sum when it fits, otherwise the sum
      wrapped around by 2^32 (two's complement). One correction suffices,
      since the sum of two `Int`s is less than 2^32 away from the range. */
  function AddInt(a: int32, b: int32): (r: int32)
    ensures MIN_INT <= a + b <= MAX_INT ==> r == a + b
    ensures r == a + b || r == a + b - TWO_TO_32 || r == a + b + TWO_TO_32
  {
    var sum := a + b;
    if sum > MAX_INT then sum - TWO_TO_32
    else if sum < MIN_INT then sum + TWO_TO_32
    else sum
  }

  predicate IsDigit(c: char) {
    '0' <= c <= '9'
  }

  predicate AllDigits(s: string) {
    forall i :: 0 <= i < |s| ==> IsDigit(s[i])
  }

  /** `s[lo..hi]` consists of decimal digits. */
  predicate DigitsBetween(s: string, lo: nat, hi: nat)
    requires lo <= hi <= |s|
  {
    forall i :: lo <= i < hi ==> IsDigit(s[i])
  }

  function DigitValue(c: char): (d: nat)
    requires IsDigit(c)
    ensures d < 10
  {
    c as int - '0' as int
  }

  function DigitChar(d: nat): (c: char)
    requires d < 10
    ensures IsDigit(c) && DigitValue(c) == d
  {
    ('0' as int + d) as char
  }

  /** The value of the decimal digits `s[lo..hi]`, most significant
      first. */
  function DigitsValue(s: string, lo: nat, hi: nat): nat
    requires lo <= hi <= |s| && DigitsBetween(s, lo, hi)
    decreases hi
  {
    if hi == lo then 0 else DigitsValue(s, lo, hi - 1) * 10 + DigitValue(s[hi - 1])
  }

  /** The shortest decimal rendering of a natural number. */
  function ShowNat(n: nat): (s: string)
    ensures 1 <= |s| && AllDigits(s)
    ensures n > 0 ==> s[0] != '0'
  {
    if n < 10 then [DigitChar(n)] else ShowNat(n / 10) + [DigitChar(n % 10)]
  }

  /** The decimal rendering of an integer, with a leading '-' when negative. */
  function Show(n: int): (s: string)
    ensures 1 <= |s|
    ensures n < 0 <==> s[0] == '-'
  {
    if n < 0 then "-" + ShowNat(-n) else ShowNat(n)
  }

  /** `Integer.parseInt(s)`: an optional '+' or '-' followed by at least one
      decimal digit, whose value must fit in an `Int`; anything else is a
      `NumberFormatException`, here `None`. */
  function ParseInt(s: string): (r: Option<int32>)
    ensures r.Some? ==> 1 <= |s| && (IsDigit(s[0]) || s[0] == '+' || s[0] == '-')
    ensures r.Some? ==> forall i :: 1 <= i < |s| ==> IsDigit(s[i])
    ensures r.Some? ==> (r.value < 0 ==> s[0] == '-')
    ensures |s| == 0 || s == "-" || s == "+" ==> r.None?
  {
    if |s| == 0 then None
    else
      var start := if s[0] == '-' || s[0] == '+' then 1 else 0;
      if start == |s| || !DigitsBetween(s, start, |s|) then None
      else
        var magnitude := DigitsValue(s, start, |s|);
        var v: int := if s[0] == '-' then -(magnitude as int) else magnitude;
        if MIN_INT <= v <= MAX_INT then Some(v) else None
  }

  /** The digits of `ShowNat(n)`, found anywhere in a string, have value `n`. */
  lemma {:induction false} DigitsValueOfShowNat(n: nat, prefix: string, suffix: string)
    ensures DigitsBetween(prefix + ShowNat(n) + suffix, |prefix|, |prefix| + |ShowNat(n)|)
    ensures DigitsValue(prefix + ShowNat(n) + suffix, |prefix|, |prefix| + |ShowNat(n)|) == n
  {
    var s := prefix + ShowNat(n) + suffix;
    var k := |ShowNat(n)|;
    assert forall i :: 0 <= i < k ==> s[|prefix| + i] == ShowNat(n)[i];
    if n >= 10 {
      var head := ShowNat(n / 10);
      assert ShowNat(n) == head + [DigitChar(n % 10)];
      assert s == prefix + head + ([DigitChar(n % 10)] + suffix);
      DigitsValueOfShowNat(n / 10, prefix, [DigitChar(n % 10)] + suffix);
      DigitsValueFrame(s, prefix + head + ([DigitChar(n % 10)] + suffix), |prefix|, |prefix| + k - 1);
    }
  }

  /** The value depends only on the characters in the range. */
  lemma {:induction false} DigitsValueFrame(s: string, t: string, lo: nat, hi: nat)
    requires lo <= hi <= |s| && hi <= |t| && DigitsBetween(s, lo, hi)
    requires forall i :: lo <= i < hi ==> s[i] == t[i]
    ensures DigitsBetween(t, lo, hi) && DigitsValue(s, lo, hi) == DigitsValue(t, lo, hi)
    decreases hi
  {
    if hi > lo {
      DigitsValueFrame(s, t, lo, hi - 1);
    }
  }

  /** Reading back the rendering of any `Int` gives that `Int`. */
  lemma ParseShow(n: int32)
    ensures ParseInt(Show(n)) == Some(n)
  {
    ShowDigits(n);
  }

  /** A well-formed decimal literal whose value does not fit in an `Int` is
      rejected rather than wrapped. */
  lemma ParseShowOverflow(n: int)
    requires n < MIN_INT || MAX_INT < n
    ensures ParseInt(Show(n)).None?
  {
    ShowDigits(n);
  }

  /** Where the digits of `Show(n)` start, and that they spell |n|. */
  lemma ShowDigits(n: int)
    ensures var s := Show(n); var start := if n < 0 then 1 else 0;
      && start < |s| && (n < 0 <==> s[0] == '-') && s[0] != '+'
      && DigitsBetween(s, start, |s|) && DigitsValue(s, start, |s|) == if n < 0 then -n else n
  {
    var s := Show(n);
    if n < 0 {
      DigitsValueOfShowNat(-n, "-", "");
      assert "-" + ShowNat(-n) + "" == s;
    } else {
      DigitsValueOfShowNat(n, "", "");
      assert "" + ShowNat(n) + "" == s;
    }
  }

  /** An explicit '+' sign and leading zeros are accepted. */
  lemma ParsePlusZeros(n: int32, zeros: nat)
    requires 0 <= n
    ensures ParseInt("+" + Zeros(zeros) + ShowNat(n)) == Some(n)
  {
    ParseZeroPadded("+", zeros, n);
  }

  /** Every decimal literal is a sign ("", "+" or "-"), some leading zeros
      and the shortest digits of its magnitude. Any such literal whose value
      fits in an `Int` is accepted with that value. */
  lemma ParseZeroPadded(sign: string, zeros: nat, n: nat)
    requires sign == "" || sign == "+" || sign == "-"
    requires MIN_INT <= (if sign == "-" then -(n as int) else n as int) <= MAX_INT
    ensures ParseInt(sign + Zeros(zeros) + ShowNat(n)) == Some(if sign == "-" then -(n as int) else n as int)
  {
    PaddedDigits(sign, zeros, n);
  }

  /** Behind a sign of at most one character, zeros and the digits of `n`
      together are digits of value `n`. */
  lemma PaddedDigits(sign: string, zeros: nat, n: nat)
    requires |sign| <= 1
    ensures var s := sign + Zeros(zeros) + ShowNat(n);
      && |sign| < |s| && s[..|sign|] == sign && (sign == "" ==> IsDigit(s[0]))
      && DigitsBetween(s, |sign|, |s|) && DigitsValue(s, |sign|, |s|) == n
  {
    var prefix := sign + Zeros(zeros);
    var s := prefix + ShowNat(n);
    DigitsValueOfShowNat(n, prefix, "");
    assert prefix + ShowNat(n) + "" == s;
    assert forall i :: |sign| <= i < |prefix| ==> s[i] == '0';
    LeadingZeros(s, |sign|, |prefix|, |s|);
  }

  function Zeros(k: nat): (s: string)
    ensures |s| == k && forall i :: 0 <= i < k ==> s[i] == '0'
  {
    if k == 0 then "" else "0" + Zeros(k - 1)
  }

  /** Zeros at the front of the digits do not change their value. */
  lemma {:induction false} LeadingZeros(s: string, lo: nat, mid: nat, hi: nat)
    requires lo <= mid <= hi <= |s|
    requires forall i :: lo <= i < mid ==> s[i] == '0'
    requires DigitsBetween(s, mid, hi)
    ensures DigitsBetween(s, lo, hi) && DigitsValue(s, lo, hi) == DigitsValue(s, mid, hi)
    decreases hi
  {
    if hi > mid {
      LeadingZeros(s, lo, mid, hi - 1);
    } else if hi > lo {
      LeadingZeros(s, lo, hi - 1, hi - 1);
    }
  }
}

=== FILE: outcomes.dfy ===
/** Failure-carrying values shared by every other module of the model.

    The program signals failures with exceptions that the command
    loop catches; here each failure is an explicit value instead.
 */
module Outcomes {

  /** A value that may be missing, such as the result of a partial parse. */
  datatype Option<+T> = None | Some(value: T)

  /** Either a successful value or the reason the operation failed. */
  datatype Result<+T, +E> = Ok(value: T) | Err(error: E)
}

=== FILE: robots.dfy ===
/** The robot itself (`Robot`, Main.kt lines 172-187): it knows only which
    way it faces, and turns by ordinal arithmetic over `Direction.values()`.
 */
module Robots {
  import opened Directions

  datatype Robot = Robot(facing: Direction)

  /** `Robot.turn`: an ordinal below NORTH's becomes WEST's, one above WEST's
      becomes NORTH's, and the facing becomes the direction with that
      ordinal. On the ordinals that left and right produce (one below or
      one above a valid ordinal) this is arithmetic modulo 4. */
  function Turn(r: Robot, newOrdinal: int): (t: Robot)
    ensures -1 <= newOrdinal <= |Values| ==> Ordinal(t.facing) == newOrdinal % |Values|
  {
    var next :=
      if newOrdinal < Ordinal(North) then Ordinal(West)
      else if newOrdinal > Ordinal(West) then Ordinal(North)
      else newOrdinal;
    r.(facing := Values[next])
  }

  /** `Robot.left`: a quarter turn counter-clockwise. The new step vector is
      the old one rotated by +90 degrees. */
  function Left(r: Robot): (t: Robot)
    ensures Ordinal(t.facing) == (Ordinal(r.facing) + 3) % 4
    ensures XIncrement(t.facing) == -YIncrement(r.facing)
    ensures YIncrement(t.facing) == XIncrement(r.facing)
  {
    Turn(r, Ordinal(r.facing) - 1)
  }

  /** `Robot.right`: a quarter turn clockwise. The new step vector is the
      old one rotated by -90 degrees. */
  function Right(r: Robot): (t: Robot)
    ensures Ordinal(t.facing) == (Ordinal(r.facing) + 1) % 4
    ensures XIncrement(t.facing) == YIncrement(r.facing)
    ensures YIncrement(t.facing) == -XIncrement(r.facing)
  {
    Turn(r, Ordinal(r.facing) + 1)
  }

  /** Right follows the cycle NORTH, EAST, SOUTH, WEST and back to NORTH. */
  lemma RightCycle()
    ensures Right(Robot(North)) == Robot(East)
    ensures Right(Robot(East)) == Robot(South)
    ensures Right(Robot(South)) == Robot(West)
    ensures Right(Robot(West)) == Robot(North)
  {
  }

  /** Left and right undo each other. */
  lemma LeftRightInverse(r: Robot)
    ensures Left(Right(r)) == r
    ensures Right(Left(r)) == r
  {
    OrdinalInjective(Left(Right(r)).facing, r.facing);
    OrdinalInjective(Right(Left(r)).facing, r.facing);
  }

  /** Four right turns bring the robot back to where it started facing. */
  lemma FullCircle(r: Robot)
    ensures Right(Right(Right(Right(r)))) == r
  {
    var r1 := Right(r);
    var r2 := Right(r1);
    var r3 := Right(r2);
    OrdinalInjective(Right(r3).facing, r.facing);
  }

  /** So do four left turns. */
  lemma FullCircleLeft(r: Robot)
    ensures Left(Left(Left(Left(r)))) == r
  {
    var l1 := Left(r);
    var l2 := Left(l1);
    var l3 := Left(l2);
    OrdinalInjective(Left(l3).facing, r.facing);
  }

  lemma OrdinalInjective(a: Direction, b: Direction)
    requires Ordinal(a) == Ordinal(b)
    ensures a == b
  {
  }
}

=== FILE: scenarios.dfy ===
/** Whole-input scenarios: the observable events of the command loop on a
    table of size 5 for a few fixed inputs. Each scenario is proved in two
    halves: the lines parse to the expected commands, and the commands
    evaluate to the expected events, assembled from single steps of `Eval`
    one command at a time, from the end of the input backwards.

    The `…Steps` lemmas take the step function as a parameter, with the
    facts they need about it as preconditions, and are applied only to
    `Eval`: with `Eval` itself in their statement the verifier would unfold
    it through every literal command at once, which is far costlier.
 */
module Scenarios {
  import opened Outcomes
  import opened Numbers
  import opened Text
  import opened Directions
  import opened Commands
  import opened Loop
  import T = Tabletops
  import Robots

  /** A trimmed line that reads PLACE with three arguments. */
  lemma PlaceLine(line: string, x: string, y: string, facing: string)
    requires line == "PLACE" + " " + x + " " + y + " " + facing
    requires ' ' !in x && ' ' !in y && ' ' !in facing && Trimmed(line)
    ensures Build(Trim(line)) == Place(x, y, facing)
  {
    TrimTrimmed(line);
    BuildPlace("PLACE", x, y, facing);
  }

  /** A line that is exactly the keyword of a command without arguments. */
  lemma BareLine(line: string, c: Command)
    requires !c.Noop? && !c.Place? && line == KeywordOf(c)
    ensures Build(Trim(line)) == c
  {
    assert Trimmed(line) by {
      match c
      case Move =>
      case Left =>
      case Right =>
      case Report =>
      case Exit =>
    }
    TrimTrimmed(line);
    BuildBare(line, c);
  }

  /** The table with the robot at (x, y) facing `d`. */
  function At(x: int32, y: int32, d: Direction): T.Tabletop {
    T.Tabletop(TABLE_SIZE, Some(T.Placement(T.Point(x, y), Robots.Robot(d))))
  }

  /** Evaluating a PLACE whose arguments are the renderings of in-range
      numbers and the name of a direction places the robot there. */
  lemma PlaceStep(t: T.Tabletop, sx: string, sy: string, facing: string, x: int32, y: int32, d: Direction)
    requires t.size == TABLE_SIZE && 0 <= x < TABLE_SIZE && 0 <= y < TABLE_SIZE
    requires sx == Show(x) && sy == Show(y) && facing == Name(d)
    ensures Eval(t, Place(sx, sy, facing)) == Outcome(At(x, y, d), Done)
  {
    ParseShow(x);
    ParseShow(y);
    ToDirectionAccepts(d, "", facing, "");
    assert "" + facing + "" == facing;
  }

  /** REPORT on a placed robot gives its position and facing and changes
      nothing. */
  lemma ReportStep(x: int32, y: int32, d: Direction)
    ensures Eval(At(x, y, d), Report) == Outcome(At(x, y, d), Reported(T.Report(x, y, d)))
  {
  }

  /** MOVE from (x, y) to the neighbouring point (nx, ny) on the table. */
  lemma MoveStep(x: int32, y: int32, d: Direction, nx: int32, ny: int32)
    requires 0 <= x < TABLE_SIZE && 0 <= y < TABLE_SIZE
    requires nx == x + XIncrement(d) && ny == y + YIncrement(d)
    requires 0 <= nx < TABLE_SIZE && 0 <= ny < TABLE_SIZE
    ensures Eval(At(x, y, d), Move) == Outcome(At(nx, ny, d), Done)
  {
  }

  /** MOVE towards an edge the robot stands on fails and keeps it there. */
  lemma MoveBlocked(x: int32, y: int32, d: Direction)
    requires 0 <= x < TABLE_SIZE && 0 <= y < TABLE_SIZE
    requires !(0 <= x + XIncrement(d) < TABLE_SIZE && 0 <= y + YIncrement(d) < TABLE_SIZE)
    ensures Eval(At(x, y, d), Move) == Outcome(At(x, y, d), Failed(T.OutOfBounds))
  {
  }

  /** LEFT turns the robot to `e` where it stands. */
  lemma LeftStep(x: int32, y: int32, d: Direction, e: Direction)
    requires e == Robots.Left(Robots.Robot(d)).facing
    ensures Eval(At(x, y, d), Left) == Outcome(At(x, y, e), Done)
  {
  }

  /** A final REPORT on a placed robot. */
  lemma ReportLast(x: int32, y: int32, d: Direction)
    ensures Fold(Eval, At(x, y, d), [Report]).events == [Reported(T.Report(x, y, d))]
  {
    ReportStep(x, y, d);
    FoldThen(Eval, At(x, y, d), Report, [], Outcome(At(x, y, d), Reported(T.Report(x, y, d))), []);
    assert [Report] + [] == [Report];
  }

  /** PLACE 0 0 NORTH, MOVE, REPORT reports (0, 1, NORTH). */
  lemma ScenarioMoveNorth()
    ensures Run(T.Empty(TABLE_SIZE), ParseLines(["PLACE 0 0 NORTH", "MOVE", "REPORT"])).events ==
      [Done, Done, Reported(T.Report(0, 1, North))]
  {
    MoveNorthLines();
    PlaceStep(T.Empty(TABLE_SIZE), "0", "0", "NORTH", 0, 0, North);
    MoveNorthTail();
    MoveNorthSteps(Eval, Place("0", "0", "NORTH"));
  }

  lemma MoveNorthLines()
    ensures ParseLines(["PLACE 0 0 NORTH", "MOVE", "REPORT"]) ==
      [Place("0", "0", "NORTH"), Move, Report]
  {
    var lines := ["PLACE 0 0 NORTH", "MOVE", "REPORT"];
    var cmds := [Place("0", "0", "NORTH"), Move, Report];
    PlaceLine(lines[0], "0", "0", "NORTH");
    BareLine(lines[1], Move);
    BareLine(lines[2], Report);
    forall i | 0 <= i < |lines|
      ensures Build(Trim(lines[i])) == cmds[i]
    {
      assert i == 0 || i == 1 || i == 2;
    }
    ParseLinesEach(lines, cmds);
  }

  lemma MoveNorthSteps(step: (T.Tabletop, Command) -> Outcome, place: Command)
    requires step(T.Empty(TABLE_SIZE), place) == Outcome(At(0, 0, North), Done)
    requires Fold(step, At(0, 0, North), [Move, Report]).events == [Done, Reported(T.Report(0, 1, North))]
    ensures Fold(step, T.Empty(TABLE_SIZE), [place, Move, Report]).events ==
      [Done, Done, Reported(T.Report(0, 1, North))]
  {
    FoldThen(step, T.Empty(TABLE_SIZE), place, [Move, Report], Outcome(At(0, 0, North), Done),
             [Done, Reported(T.Report(0, 1, North))]);
    assert [place] + [Move, Report] == [place, Move, Report];
  }

  lemma MoveNorthTail()
    ensures Fold(Eval, At(0, 0, North), [Move, Report]).events == [Done, Reported(T.Report(0, 1, North))]
  {
    ReportLast(0, 1, North);
    MoveStep(0, 0, North, 0, 1);
    FoldThen(Eval, At(0, 0, North), Move, [Report], Outcome(At(0, 1, North), Done), [Reported(T.Report(0, 1, North))]);
    assert [Move] + [Report] == [Move, Report];
  }

  /** PLACE 1 2 EAST, LEFT, MOVE, REPORT: after the turn the move goes
      north, so the report gives (1, 3, NORTH). */
  lemma ScenarioTurnLeft()
    ensures Run(T.Empty(TABLE_SIZE), ParseLines(["PLACE 1 2 EAST", "LEFT", "MOVE", "REPORT"])).events ==
      [Done, Done, Done, Reported(T.Report(1, 3, North))]
  {
    TurnLeftLines();
    PlaceStep(T.Empty(TABLE_SIZE), "1", "2", "EAST", 1, 2, East);
    TurnLeftTurn();
    TurnLeftSteps(Eval, Place("1", "2", "EAST"));
  }

  lemma TurnLeftLines()
    ensures ParseLines(["PLACE 1 2 EAST", "LEFT", "MOVE", "REPORT"]) ==
      [Place("1", "2", "EAST"), Left, Move, Report]
  {
    var lines := ["PLACE 1 2 EAST", "LEFT", "MOVE", "REPORT"];
    var cmds := [Place("1", "2", "EAST"), Left, Move, Report];
    PlaceLine(lines[0], "1", "2", "EAST");
    BareLine(lines[1], Left);
    BareLine(lines[2], Move);
    BareLine(lines[3], Report);
    forall i | 0 <= i < |lines|
      ensures Build(Trim(lines[i])) == cmds[i]
    {
      assert i == 0 || i == 1 || i == 2 || i == 3;
    }
    ParseLinesEach(lines, cmds);
  }

  lemma TurnLeftSteps(step: (T.Tabletop, Command) -> Outcome, place: Command)
    requires step(T.Empty(TABLE_SIZE), place) == Outcome(At(1, 2, East), Done)
    requires Fold(step, At(1, 2, East), [Left, Move, Report]).events == [Done, Done, Reported(T.Report(1, 3, North))]
    ensures Fold(step, T.Empty(TABLE_SIZE), [place, Left, Move, Report]).events ==
      [Done, Done, Done, Reported(T.Report(1, 3, North))]
  {
    FoldThen(step, T.Empty(TABLE_SIZE), place, [Left, Move, Report], Outcome(At(1, 2, East), Done),
             [Done, Done, Reported(T.Report(1, 3, North))]);
    assert [place] + [Left, Move, Report] == [place, Left, Move, Report];
  }

  lemma TurnLeftTurn()
    ensures Fold(Eval, At(1, 2, East), [Left, Move, Report]).events ==
      [Done, Done, Reported(T.Report(1, 3, North))]
  {
    TurnLeftMove();
    LeftStep(1, 2, East, North);
    FoldThen(Eval, At(1, 2, East), Left, [Move, Report], Outcome(At(1, 2, North), Done),
             [Done, Reported(T.Report(1, 3, North))]);
    assert [Left] + [Move, Report] == [Left, Move, Report];
  }

  lemma TurnLeftMove()
    ensures Fold(Eval, At(1, 2, North), [Move, Report]).events == [Done, Reported(T.Report(1, 3, North))]
  {
    ReportLast(1, 3, North);
    MoveStep(1, 2, North, 1, 3);
    FoldThen(Eval, At(1, 2, North), Move, [Report], Outcome(At(1, 3, North), Done), [Reported(T.Report(1, 3, North))]);
    assert [Move] + [Report] == [Move, Report];
  }

  /** PLACE 1 2 EAST, MOVE, MOVE, LEFT, REPORT: two moves east, then a turn
      on the spot, so the report gives (3, 2, NORTH). */
  lemma ScenarioTwoMovesThenLeft()
    ensures Run(T.Empty(TABLE_SIZE), ParseLines(["PLACE 1 2 EAST", "MOVE", "MOVE", "LEFT", "REPORT"])).events ==
      [Done, Done, Done, Done, Reported(T.Report(3, 2, North))]
  {
    TwoMovesLines();
    PlaceStep(T.Empty(TABLE_SIZE), "1", "2", "EAST", 1, 2, East);
    TwoMovesFirst();
    TwoMovesSteps(Eval, Place("1", "2", "EAST"));
  }

  lemma TwoMovesLines()
    ensures ParseLines(["PLACE 1 2 EAST", "MOVE", "MOVE", "LEFT", "REPORT"]) ==
      [Place("1", "2", "EAST"), Move, Move, Left, Report]
  {
    var lines := ["PLACE 1 2 EAST", "MOVE", "MOVE", "LEFT", "REPORT"];
    var cmds := [Place("1", "2", "EAST"), Move, Move, Left, Report];
    PlaceLine(lines[0], "1", "2", "EAST");
    BareLine(lines[1], Move);
    BareLine(lines[3], Left);
    BareLine(lines[4], Report);
    forall i | 0 <= i < |lines|
      ensures Build(Trim(lines[i])) == cmds[i]
    {
      assert i == 0 || i == 1 || i == 2 || i == 3 || i == 4;
    }
    ParseLinesEach(lines, cmds);
  }

  lemma TwoMovesSteps(step: (T.Tabletop, Command) -> Outcome, place: Command)
    requires step(T.Empty(TABLE_SIZE), place) == Outcome(At(1, 2, East), Done)
    requires Fold(step, At(1, 2, East), [Move, Move, Left, Report]).events ==
      [Done, Done, Done, Reported(T.Report(3, 2, North))]
    ensures Fold(step, T.Empty(TABLE_SIZE), [place, Move, Move, Left, Report]).events ==
      [Done, Done, Done, Done, Reported(T.Report(3, 2, North))]
  {
    FoldThen(step, T.Empty(TABLE_SIZE), place, [Move, Move, Left, Report], Outcome(At(1, 2, East), Done),
             [Done, Done, Done, Reported(T.Report(3, 2, North))]);
    assert [place] + [Move, Move, Left, Report] == [place, Move, Move, Left, Report];
  }

  lemma TwoMovesFirst()
    ensures Fold(Eval, At(1, 2, East), [Move, Move, Left, Report]).events ==
      [Done, Done, Done, Reported(T.Report(3, 2, North))]
  {
    TwoMovesSecond();
    MoveStep(1, 2, East, 2, 2);
    FoldThen(Eval, At(1, 2, East), Move, [Move, Left, Report], Outcome(At(2, 2, East), Done),
             [Done, Done, Reported(T.Report(3, 2, North))]);
    assert [Move] + [Move, Left, Report] == [Move, Move, Left, Report];
  }

  lemma TwoMovesSecond()
    ensures Fold(Eval, At(2, 2, East), [Move, Left, Report]).events ==
      [Done, Done, Reported(T.Report(3, 2, North))]
  {
    TwoMovesTurn();
    MoveStep(2, 2, East, 3, 2);
    FoldThen(Eval, At(2, 2, East), Move, [Left, Report], Outcome(At(3, 2, East), Done),
             [Done, Reported(T.Report(3, 2, North))]);
    assert [Move] + [Left, Report] == [Move, Left, Report];
  }

  lemma TwoMovesTurn()
    ensures Fold(Eval, At(3, 2, East), [Left, Report]).events == [Done, Reported(T.Report(3, 2, North))]
  {
    ReportLast(3, 2, North);
    LeftStep(3, 2, East, North);
    FoldThen(Eval, At(3, 2, East), Left, [Report], Outcome(At(3, 2, North), Done), [Reported(T.Report(3, 2, North))]);
    assert [Left] + [Report] == [Left, Report];
  }

  /** PLACE 0 0 SOUTH, MOVE, REPORT: the move would leave the table, so it
      fails and the report still gives (0, 0, SOUTH). */
  lemma ScenarioEdge()
    ensures Run(T.Empty(TABLE_SIZE), ParseLines(["PLACE 0 0 SOUTH", "MOVE", "REPORT"])).events ==
      [Done, Failed(T.OutOfBounds), Reported(T.Report(0, 0, South))]
  {
    EdgeLines();
    PlaceStep(T.Empty(TABLE_SIZE), "0", "0", "SOUTH", 0, 0, South);
    EdgeTail();
    EdgeSteps(Eval, Place("0", "0", "SOUTH"));
  }

  lemma EdgeLines()
    ensures ParseLines(["PLACE 0 0 SOUTH", "MOVE", "REPORT"]) ==
      [Place("0", "0", "SOUTH"), Move, Report]
  {
    var lines := ["PLACE 0 0 SOUTH", "MOVE", "REPORT"];
    var cmds := [Place("0", "0", "SOUTH"), Move, Report];
    PlaceLine(lines[0], "0", "0", "SOUTH");
    BareLine(lines[1], Move);
    BareLine(lines[2], Report);
    forall i | 0 <= i < |lines|
      ensures Build(Trim(lines[i])) == cmds[i]
    {
      assert i == 0 || i == 1 || i == 2;
    }
    ParseLinesEach(lines, cmds);
  }

  lemma EdgeSteps(step: (T.Tabletop, Command) -> Outcome, place: Command)
    requires step(T.Empty(TABLE_SIZE), place) == Outcome(At(0, 0, South), Done)
    requires Fold(step, At(0, 0, South), [Move, Report]).events ==
      [Failed(T.OutOfBounds), Reported(T.Report(0, 0, South))]
    ensures Fold(step, T.Empty(TABLE_SIZE), [place, Move, Report]).events ==
      [Done, Failed(T.OutOfBounds), Reported(T.Report(0, 0, South))]
  {
    FoldThen(step, T.Empty(TABLE_SIZE), place, [Move, Report], Outcome(At(0, 0, South), Done),
             [Failed(T.OutOfBounds), Reported(T.Report(0, 0, South))]);
    assert [place] + [Move, Report] == [place, Move, Report];
  }

  lemma EdgeTail()
    ensures Fold(Eval, At(0, 0, South), [Move, Report]).events == [Failed(T.OutOfBounds), Reported(T.Report(0, 0, South))]
  {
    ReportLast(0, 0, South);
    MoveBlocked(0, 0, South);
    FoldThen(Eval, At(0, 0, South), Move, [Report], Outcome(At(0, 0, South), Failed(T.OutOfBounds)),
             [Reported(T.Report(0, 0, South))]);
    assert [Move] + [Report] == [Move, Report];
  }

  /** MOVE before any PLACE fails without ending the loop; an unknown line
      is ignored; a later PLACE 2 2 WEST and REPORT give (2, 2, WEST). */
  lemma ScenarioRecover()
    ensures Run(T.Empty(TABLE_SIZE), ParseLines(["MOVE", "FOO BAR", "PLACE 2 2 WEST", "REPORT"])).events ==
      [Failed(T.NotPlaced), Ignored, Done, Reported(T.Report(2, 2, West))]
  {
    RecoverLines();
    PlaceStep(T.Empty(TABLE_SIZE), "2", "2", "WEST", 2, 2, West);
    ReportLast(2, 2, West);
    RecoverSteps(Eval, Place("2", "2", "WEST"));
  }

  lemma RecoverLines()
    ensures ParseLines(["MOVE", "FOO BAR", "PLACE 2 2 WEST", "REPORT"]) ==
      [Move, Noop, Place("2", "2", "WEST"), Report]
  {
    var lines := ["MOVE", "FOO BAR", "PLACE 2 2 WEST", "REPORT"];
    var cmds := [Move, Noop, Place("2", "2", "WEST"), Report];
    PlaceLine(lines[2], "2", "2", "WEST");
    BareLine(lines[0], Move);
    BareLine(lines[3], Report);
    FooBarIsNoop(lines[1]);
    forall i | 0 <= i < |lines|
      ensures Build(Trim(lines[i])) == cmds[i]
    {
      assert i == 0 || i == 1 || i == 2 || i == 3;
    }
    ParseLinesEach(lines, cmds);
  }

  lemma RecoverSteps(step: (T.Tabletop, Command) -> Outcome, place: Command)
    requires step(T.Empty(TABLE_SIZE), Move) == Outcome(T.Empty(TABLE_SIZE), Failed(T.NotPlaced))
    requires step(T.Empty(TABLE_SIZE), Noop) == Outcome(T.Empty(TABLE_SIZE), Ignored)
    requires step(T.Empty(TABLE_SIZE), place) == Outcome(At(2, 2, West), Done)
    requires Fold(step, At(2, 2, West), [Report]).events == [Reported(T.Report(2, 2, West))]
    ensures Fold(step, T.Empty(TABLE_SIZE), [Move, Noop, place, Report]).events ==
      [Failed(T.NotPlaced), Ignored, Done, Reported(T.Report(2, 2, West))]
  {
    var e := T.Empty(TABLE_SIZE);
    FoldThen(step, e, place, [Report], Outcome(At(2, 2, West), Done), [Reported(T.Report(2, 2, West))]);
    assert [place] + [Report] == [place, Report];
    FoldThen(step, e, Noop, [place, Report], Outcome(e, Ignored), [Done, Reported(T.Report(2, 2, West))]);
    assert [Noop] + [place, Report] == [Noop, place, Report];
    FoldThen(step, e, Move, [Noop, place, Report], Outcome(e, Failed(T.NotPlaced)),
             [Ignored, Done, Reported(T.Report(2, 2, West))]);
    assert [Move] + [Noop, place, Report] == [Move, Noop, place, Report];
  }

  /** A line whose first word is no keyword is a no-op. */
  lemma FooBarIsNoop(line: string)
    requires line == "FOO BAR"
    ensures Build(Trim(line)) == Noop
  {
    TrimTrimmed(line);
    SplitJoin(["FOO", "BAR"], ' ');
    assert Join(["FOO", "BAR"], ' ') == line;
    KeywordTable();
    assert Upper("FOO") == "FOO";
    BuildUnknown(line);
  }

  /** EXIT ends the loop at once: nothing after it is evaluated. */
  lemma ScenarioExit(rest: seq<string>)
    ensures Run(T.Empty(TABLE_SIZE), ParseLines(["EXIT"] + rest)) == Trace(T.Empty(TABLE_SIZE), [Bye])
  {
    var lines := ["EXIT"] + rest;
    BareLine(lines[0], Exit);
    FoldUnfold(Eval, T.Empty(TABLE_SIZE), ParseLines(lines));
  }
}

=== FILE: tabletops.dfy ===
/** The square table and the robot on it (`Tabletop`, Main.kt lines
    116-170). The table has a fixed `size`; the robot and its position
    exist only once a placement has succeeded, and they are always set
    together. Every operation returns either the new table or the reason
    it failed; a failure carries no table, so the caller keeps the old one.
 */
module Tabletops {
  import opened Outcomes
  import opened Numbers
  import opened Directions
  import Robots

  /** The failures the command loop catches and logs. */
  datatype Error =
    | BadNumber         // x or y of a PLACE is not an `Int` literal
    | InvalidDirection  // the facing of a PLACE names no direction
    | OutOfBounds       // a PLACE or MOVE would put the robot off the table
    | NotPlaced         // MOVE, LEFT, RIGHT or REPORT before any PLACE

  /** A `java.awt.Point`: two `Int` coordinates. */
  datatype Point = Point(x: int32, y: int32)

  /** The robot together with the position the table holds for it. */
  datatype Placement = Placement(position: Point, robot: Robots.Robot)

  datatype Tabletop = Tabletop(size: int32, placement: Option<Placement>)

  /** What REPORT makes observable: the position and the facing. */
  datatype Report = Report(x: int32, y: int32, facing: Direction)

  /** Both coordinates lie in `0 until size`. */
  predicate OnTable(size: int, p: Point) {
    0 <= p.x < size && 0 <= p.y < size
  }

  /** The table invariant: a placed robot is on the table. */
  predicate Valid(t: Tabletop) {
    t.placement.Some? ==> OnTable(t.size, t.placement.value.position)
  }

  /** The table with no robot, as constructed. */
  function Empty(size: int32): (t: Tabletop)
    ensures t.size == size && t.placement.None? && Valid(t)
  {
    Tabletop(size, None)
  }

  /** `Tabletop.place`: the bounds are checked before anything is assigned,
      and on success the robot and position are replaced whatever was there
      before. */
  function Place(t: Tabletop, x: int32, y: int32, facing: Direction): (r: Result<Tabletop, Error>)
    ensures r.Ok? <==> 0 <= x < t.size && 0 <= y < t.size
    ensures r.Ok? ==> r.value.size == t.size && Valid(r.value)
    ensures r.Ok? ==> r.value.placement == Some(Placement(Point(x, y), Robots.Robot(facing)))
    ensures r.Err? ==> r.error == OutOfBounds
  {
    var location := Point(x, y);
    if !OnTable(t.size, location) then Err(OutOfBounds)
    else Ok(t.(placement := Some(Placement(location, Robots.Robot(facing)))))
  }

  /** The point one step from `p` towards `d`, computed as `Point.translate`
      does, with 32-bit wrap-around. */
  function Translate(p: Point, d: Direction): (q: Point)
    ensures q.x == p.x + XIncrement(d)
      || (p.x == MAX_INT && XIncrement(d) == 1 && q.x == MIN_INT)
      || (p.x == MIN_INT && XIncrement(d) == -1 && q.x == MAX_INT)
    ensures q.y == p.y + YIncrement(d)
      || (p.y == MAX_INT && YIncrement(d) == 1 && q.y == MIN_INT)
      || (p.y == MIN_INT && YIncrement(d) == -1 && q.y == MAX_INT)
  {
    Point(AddInt(p.x, XIncrement(d)), AddInt(p.y, YIncrement(d)))
  }

  /** From a point on the table one step never overflows an `Int`, so the
      wrap-around of `Translate` never takes effect in a valid state. */
  lemma TranslateExact(size: int32, p: Point, d: Direction)
    requires OnTable(size, p)
    ensures Translate(p, d).x == p.x + XIncrement(d)
    ensures Translate(p, d).y == p.y + YIncrement(d)
  {
  }

  /** `Tabletop.move`: the robot must be placed; the candidate one step
      ahead is checked against the bounds and only then committed. */
  function Move(t: Tabletop): (r: Result<Tabletop, Error>)
    ensures t.placement.None? ==> r == Err(NotPlaced)
    ensures t.placement.Some? && r.Err? ==> r.error == OutOfBounds
    ensures r.Ok? ==> r.value.size == t.size && Valid(r.value)
    ensures r.Ok? ==> t.placement.Some? && r.value.placement.Some?
    ensures r.Ok? ==> r.value.placement.value.robot == t.placement.value.robot
    ensures Valid(t) && t.placement.Some? ==>
      var p := t.placement.value.position;
      var d := t.placement.value.robot.facing;
      && (r.Ok? <==> 0 <= p.x + XIncrement(d) < t.size && 0 <= p.y + YIncrement(d) < t.size)
      && (r.Ok? ==> r.value.placement.value.position.x == p.x + XIncrement(d))
      && (r.Ok? ==> r.value.placement.value.position.y == p.y + YIncrement(d))
  {
    match t.placement
    case None => Err(NotPlaced)
    case Some(placed) =>
      var newPosition := Translate(placed.position, placed.robot.facing);
      if !OnTable(t.size, newPosition) then Err(OutOfBounds)
      else Ok(t.(placement := Some(placed.(position := newPosition))))
  }

  /** `Tabletop.left`: turn counter-clockwise in place. */
  function Left(t: Tabletop): (r: Result<Tabletop, Error>)
    ensures r.Err? <==> t.placement.None?
    ensures r.Err? ==> r.error == NotPlaced
    ensures r.Ok? ==> r.value.size == t.size && r.value.placement.Some?
    ensures r.Ok? ==> r.value.placement.value.position == t.placement.value.position
    ensures r.Ok? ==> r.value.placement.value.robot == Robots.Left(t.placement.value.robot)
    ensures r.Ok? && Valid(t) ==> Valid(r.value)
  {
    match t.placement
    case None => Err(NotPlaced)
    case Some(placed) => Ok(t.(placement := Some(placed.(robot := Robots.Left(placed.robot)))))
  }

  /** `Tabletop.right`: turn clockwise in place. */
  function Right(t: Tabletop): (r: Result<Tabletop, Error>)
    ensures r.Err? <==> t.placement.None?
    ensures r.Err? ==> r.error == NotPlaced
    ensures r.Ok? ==> r.value.size == t.size && r.value.placement.Some?
    ensures r.Ok? ==> r.value.placement.value.position == t.placement.value.position
    ensures r.Ok? ==> r.value.placement.value.robot == Robots.Right(t.placement.value.robot)
    ensures r.Ok? && Valid(t) ==> Valid(r.value)
  {
    match t.placement
    case None => Err(NotPlaced)
    case Some(placed) => Ok(t.(placement := Some(placed.(robot := Robots.Right(placed.robot)))))
  }

  /** `Tabletop.report`: the current position and facing, once placed. It
      returns no table because it changes nothing. */
  function ReportPosition(t: Tabletop): (r: Result<Report, Error>)
    ensures r.Err? <==> t.placement.None?
    ensures r.Err? ==> r.error == NotPlaced
    ensures r.Ok? ==> Point(r.value.x, r.value.y) == t.placement.value.position
    ensures r.Ok? ==> r.value.facing == t.placement.value.robot.facing
  {
    match t.placement
    case None => Err(NotPlaced)
    case Some(placed) => Ok(Report(placed.position.x, placed.position.y, placed.robot.facing))
  }

  /** A placement off the table is refused whatever the table held. The
      refusal carries no table, so the caller keeps the one it had. */
  lemma PlaceOutsideRejected(t: Tabletop, x: int32, y: int32, facing: Direction)
    requires x < 0 || t.size <= x || y < 0 || t.size <= y
    ensures Place(t, x, y, facing) == Err(OutOfBounds)
  {
  }

  /** A successful placement does not depend on the previous state of the
      table: whatever was there is replaced. */
  lemma PlaceForgetsPrevious(t: Tabletop, u: Tabletop, x: int32, y: int32, facing: Direction)
    requires t.size == u.size
    ensures Place(t, x, y, facing) == Place(u, x, y, facing)
  {
  }

  /** Turning never moves the robot, and a left turn undoes a right turn. */
  lemma TurnsKeepPosition(t: Tabletop)
    requires t.placement.Some?
    ensures Right(t).Ok? && Left(Right(t).value) == Ok(t)
    ensures Left(t).Ok? && Right(Left(t).value) == Ok(t)
  {
    Robots.LeftRightInverse(t.placement.value.robot);
  }
}

=== FILE: text.dfy ===
/** The string operations the program relies on: Kotlin's `trim()`,
    `split(" ")`, ASCII upper-casing and `equals(…, ignoreCase = true)`.
 */
module Text {

  /** Kotlin's `Char.isWhitespace` on the JVM: `Character.isWhitespace` or
      `Character.isSpaceChar`, written out as the set of code points it
      accepts. */
  predicate IsWhitespace(c: char) {
    || c == ' ' || '\t' <= c <= '\r' || '\U{1C}' <= c <= '\U{1F}'
    || c == '\U{A0}' || c == '\U{1680}' || '\U{2000}' <= c <= '\U{200A}'
    || c == '\U{2028}' || c == '\U{2029}' || c == '\U{202F}' || c == '\U{205F}'
    || c == '\U{3000}'
  }

  predicate AllWhitespace(s: string) {
    forall i :: 0 <= i < |s| ==> IsWhitespace(s[i])
  }

  /** Neither end of `s` is whitespace. */
  predicate Trimmed(s: string) {
    |s| == 0 || (!IsWhitespace(s[0]) && !IsWhitespace(s[|s| - 1]))
  }

  /** The number of whitespace characters `s` starts with. */
  function LeadingWhitespace(s: string): (k: nat)
    ensures k <= |s| && AllWhitespace(s[..k])
    ensures k < |s| ==> !IsWhitespace(s[k])
  {
    if |s| > 0 && IsWhitespace(s[0]) then
      var k := 1 + LeadingWhitespace(s[1..]);
      assert forall i :: 1 <= i < k ==> s[..k][i] == s[1..][..k - 1][i - 1];
      k
    else 0
  }

  /** The number of whitespace characters `s` ends with. */
  function TrailingWhitespace(s: string): (k: nat)
    ensures k <= |s| && AllWhitespace(s[|s| - k..])
    ensures k < |s| ==> !IsWhitespace(s[|s| - 1 - k])
  {
    if |s| > 0 && IsWhitespace(s[|s| - 1]) then
      var front := s[..|s| - 1];
      var inner := TrailingWhitespace(front);
      var k := 1 + inner;
      forall i | |s| - k <= i < |s|
        ensures IsWhitespace(s[i])
      {
        if i < |s| - 1 {
          assert s[i] == front[|front| - inner..][i - (|s| - k)];
        }
      }
      assert k < |s| ==> s[|s| - 1 - k] == front[|front| - 1 - inner];
      k
    else 0
  }

  /** Kotlin's `String.trim()`: `s` without its leading and trailing
      whitespace. */
  function Trim(s: string): (r: string)
    ensures Trimmed(r)
    ensures |r| <= |s| - LeadingWhitespace(s)
    ensures s == s[..LeadingWhitespace(s)] + r + s[LeadingWhitespace(s) + |r|..]
    ensures AllWhitespace(s[LeadingWhitespace(s) + |r|..])
  {
    var lead := LeadingWhitespace(s);
    if lead == |s| then ""
    else
      var trail := TrailingWhitespace(s);
      s[lead..|s| - trail]
  }

  /** Trim removes exactly the whitespace padding: whatever whitespace
      surrounds a trimmed string, trimming gives that string back. */
  lemma TrimPadding(before: string, r: string, after: string)
    requires AllWhitespace(before) && AllWhitespace(after) && Trimmed(r)
    ensures Trim(before + r + after) == r
  {
    var s := before + r + after;
    LeadingOfPadded(before, r + after);
    assert s == before + (r + after);
    if |r| == 0 {
      assert s == before + after;
      assert forall i :: 0 <= i < |s| ==> IsWhitespace(s[i]);
    } else {
      TrailingOfPadded(before + r, after);
      assert s[|before|..|s| - |after|] == r;
    }
  }

  lemma LeadingOfPadded(before: string, rest: string)
    requires AllWhitespace(before)
    requires |rest| == 0 || !IsWhitespace(rest[0]) || AllWhitespace(rest)
    ensures LeadingWhitespace(before + rest) == |before| + (if AllWhitespace(rest) then |rest| else 0)
  {
    LeadingSkipsWhitespace(before, rest);
    if AllWhitespace(rest) {
      LeadingSkipsWhitespace(rest, "");
      assert rest + "" == rest;
    }
  }

  lemma {:induction false} LeadingSkipsWhitespace(before: string, rest: string)
    requires AllWhitespace(before)
    ensures LeadingWhitespace(before + rest) == |before| + LeadingWhitespace(rest)
  {
    if |before| > 0 {
      assert (before + rest)[1..] == before[1..] + rest;
      LeadingSkipsWhitespace(before[1..], rest);
    } else {
      assert before + rest == rest;
    }
  }

  lemma TrailingOfPadded(rest: string, after: string)
    requires AllWhitespace(after)
    requires |rest| > 0 && !IsWhitespace(rest[|rest| - 1])
    ensures TrailingWhitespace(rest + after) == |after|
  {
    var s := rest + after;
    var k := TrailingWhitespace(s);
    assert forall i :: 0 <= i < |rest| ==> s[i] == rest[i];
    assert forall i :: |rest| <= i < |s| ==> s[i] == after[i - |rest|];
  }

  /** A trimmed string is its own trim. */
  lemma TrimTrimmed(s: string)
    requires Trimmed(s)
    ensures Trim(s) == s
  {
    TrimPadding("", s, "");
    assert "" + s + "" == s;
  }

  /** Trimming twice is trimming once. */
  lemma TrimIdempotent(s: string)
    ensures Trim(Trim(s)) == Trim(s)
  {
    TrimTrimmed(Trim(s));
  }

  /** The number of occurrences of `c` in `s`. */
  function Occurrences(s: string, c: char): nat {
    if |s| == 0 then 0 else (if s[0] == c then 1 else 0) + Occurrences(s[1..], c)
  }

  /** Kotlin's `s.split(sep)` with no limit: every occurrence of the
      separator ends a piece, so adjacent separators give empty pieces and
      trailing empty pieces are kept. */
  function Split(s: string, sep: char): (r: seq<string>)
    ensures |r| == Occurrences(s, sep) + 1
    ensures forall i :: 0 <= i < |r| ==> sep !in r[i]
  {
    if |s| == 0 then [""]
    else
      var rest := Split(s[1..], sep);
      if s[0] == sep then [""] + rest
      else
        assert forall i :: 1 <= i < |rest| ==> ([[s[0]] + rest[0]] + rest[1..])[i] == rest[i];
        [[s[0]] + rest[0]] + rest[1..]
  }

  /** The pieces joined back with the separator between each pair. */
  function Join(pieces: seq<string>, sep: char): string
    requires |pieces| >= 1
  {
    if |pieces| == 1 then pieces[0] else pieces[0] + [sep] + Join(pieces[1..], sep)
  }

  /** Joining the pieces of a split gives back the original string. */
  lemma {:induction false} JoinSplit(s: string, sep: char)
    ensures Join(Split(s, sep), sep) == s
  {
    if |s| > 0 {
      var rest := Split(s[1..], sep);
      JoinSplit(s[1..], sep);
      if s[0] == sep {
        assert ([""] + rest)[1..] == rest;
      } else {
        var r := [[s[0]] + rest[0]] + rest[1..];
        if |rest| > 1 {
          assert r[1..] == rest[1..];
        }
      }
    }
  }

  /** Splitting pieces that do not contain the separator, once joined,
      gives the same pieces back. */
  lemma {:induction false} SplitJoin(pieces: seq<string>, sep: char)
    requires |pieces| >= 1
    requires forall i :: 0 <= i < |pieces| ==> sep !in pieces[i]
    ensures Split(Join(pieces, sep), sep) == pieces
  {
    if |pieces| == 1 {
      SplitWithout(pieces[0], sep);
    } else {
      var tail := Join(pieces[1..], sep);
      SplitJoin(pieces[1..], sep);
      SplitPrefix(pieces[0], [sep] + tail, sep);
      assert ([sep] + tail)[1..] == tail;
      assert Split([sep] + tail, sep) == [""] + Split(tail, sep);
      assert pieces[0] + "" == pieces[0];
      assert pieces[0] + [sep] + tail == pieces[0] + ([sep] + tail);
      assert pieces == [pieces[0]] + pieces[1..];
    }
  }

  lemma {:induction false} SplitWithout(w: string, sep: char)
    requires sep !in w
    ensures Split(w, sep) == [w]
  {
    if |w| > 0 {
      SplitWithout(w[1..], sep);
      assert [w[0]] + w[1..] == w;
    }
  }

  /** A separator-free prefix is glued onto the first piece. */
  lemma {:induction false} SplitPrefix(w: string, t: string, sep: char)
    requires sep !in w
    ensures Split(w + t, sep) == [w + Split(t, sep)[0]] + Split(t, sep)[1..]
  {
    if |w| > 0 {
      SplitPrefix(w[1..], t, sep);
      assert (w + t)[1..] == w[1..] + t;
      assert [w[0]] + (w[1..] + Split(t, sep)[0]) == w + Split(t, sep)[0];
    } else {
      assert w + t == t;
      assert w + Split(t, sep)[0] == Split(t, sep)[0];
      assert Split(t, sep) == [Split(t, sep)[0]] + Split(t, sep)[1..];
    }
  }

  /** ASCII upper-casing of one character. */
  function UpperChar(c: char): (u: char)
    ensures 'a' <= c <= 'z' ==> 'A' <= u <= 'Z' && u as int - c as int == 'A' as int - 'a' as int
    ensures !('a' <= c <= 'z') ==> u == c
  {
    if 'a' <= c <= 'z' then (c as int - 'a' as int + 'A' as int) as char else c
  }

  /** `toUpperCase()`, character by character. */
  function Upper(s: string): (u: string)
    ensures |u| == |s|
  {
    seq(|s|, i requires 0 <= i < |s| => UpperChar(s[i]))
  }

  /** Upper-casing leaves no lower-case ASCII letter, turns each one into
      its capital and keeps every other character. */
  lemma UpperLetters(s: string)
    ensures forall i :: 0 <= i < |s| ==> !('a' <= Upper(s)[i] <= 'z')
    ensures forall i :: 0 <= i < |s| && 'a' <= s[i] <= 'z' ==>
      Upper(s)[i] as int == s[i] as int - ('a' as int - 'A' as int)
    ensures forall i :: 0 <= i < |s| && !('a' <= s[i] <= 'z') ==> Upper(s)[i] == s[i]
  {
    forall i | 0 <= i < |s|
      ensures Upper(s)[i] == UpperChar(s[i])
    {
    }
  }

  /** `a.equals(b, ignoreCase = true)`. */
  predicate EqualsIgnoreCase(a: string, b: string) {
    Upper(a) == Upper(b)
  }

  /** Equality ignoring case compares position by position: the strings
      have the same length and each pair of characters agrees once
      upper-cased. */
  lemma EqualsIgnoreCaseCharwise(a: string, b: string)
    ensures EqualsIgnoreCase(a, b) <==>
      |a| == |b| && forall i :: 0 <= i < |a| ==> UpperChar(a[i]) == UpperChar(b[i])
  {
    if |a| == |b| && forall i :: 0 <= i < |a| ==> UpperChar(a[i]) == UpperChar(b[i]) {
      assert forall i :: 0 <= i < |a| ==> Upper(a)[i] == Upper(b)[i];
    }
    if EqualsIgnoreCase(a, b) {
      assert forall i :: 0 <= i < |a| ==> Upper(a)[i] == UpperChar(a[i]) && Upper(b)[i] == UpperChar(b[i]);
    }
  }
}
